=== FILE: README.md ===
# AHT10 sensor driver — Dafny model

This project models the bare-metal driver for the AHT10 temperature and humidity sensor in Dafny. It covers the protocol layer in `src/AHT10.c`:

- `AHT10_begin`, `AHT10_reset` and `AHT10_read`;
- the decoding of the sensor's 6-byte measurement frame into the two `int16_t` fields of `AHT10_Dev`;
- the two I2C master transactions, `i2c_write` and `i2c_read`, with their bounded wait loops.

The model has five modules:

- `Bits` defines the C operators the decoder uses on unsigned integers (`<<` on a `uint32_t`, `>>`, `|` and `&`) on natural numbers. Its lemmas prove that the decoder's OR of shifted bytes is a base-256 number, that `& 0x0F` keeps the low nibble, and that `& 0x80` tests bit 7.
- `FixedPoint` holds the two transfer functions. The source computes them in `double`, but every intermediate value is exact: raw readings are below 2^20, products are below 2^31, and division by 2^20 is exact. So they are modelled as integers. Humidity is floor(raw·1000 / 2^20). Temperature is raw·2000 / 2^20 − 500 truncated toward zero, which is the C conversion to an integer (section 6.3.1.4 of ISO C11).
- `Frame` holds the frame layout: the busy bit, the two 20-bit readings sharing byte 3, and the inverse packing.
- `Bus` models the transactions. The peripheral is an oracle `Hw`. The t-th status-flag poll observes `ready(t)`, which says whether the awaited condition holds. A data-register read right after poll t yields `data(t)`. Each transaction returns whether it succeeded, the next observation index, the bus actions it took (start, bytes sent, ACK/NACK, bytes received, stop), and the bytes it received.
- `Aht10` holds the device handle, the command constants, `Decode`, `Reset`, `Begin` and `Read`. Settling delays appear as `DelayMs` actions.

`begin` does not fail when its reset write fails. The code ignores the result of the reset write (`src/AHT10.c:40`, `src/AHT10.c:51-55`), and the model follows the code: `begin` fails exactly when the initialisation write fails. `Aht10.Begin` states this, and `Aht10.BeginSucceedsAfterFailedReset` exhibits a bus where the reset fails and `begin` still succeeds.

## Model

| member | source | states |
|---|---|---|
| `Bits.ShiftLeft32` | src/AHT10.c:72-73 | `x << n` on a `uint32_t` is always below 2^32. It is x·2^n exactly when that product fits in 32 bits. |
| `Bits.ShiftRight` | src/AHT10.c:74 | `x >> n` is never larger than x. It is strictly smaller when n > 0 and x > 0. |
| `Bits.BitOr` | src/AHT10.c:72-73 | OR only sets bits and never carries: the OR of a and b is at least each operand and at most a + b. |
| `Bits.AndBounds` | src/AHT10.c:69 | AND only clears bits: `a & b` is at most each operand. |
| `Bits.ConcatBytes` | src/AHT10.c:72-73 | (a << 16) OR (b << 8) OR c on three bytes loses nothing in 32 bits. It equals a·65536 + b·256 + c because the fields do not overlap. |
| `Bits.ShiftRightDiv` | src/AHT10.c:74 | `x >> n`, n halvings, is x divided by 2^n rounded down. |
| `Bits.LowNibble` | src/AHT10.c:78 | `x & 0x0F` is x mod 16. |
| `Bits.HighBit` | src/AHT10.c:69 | `x & 0x80` on a byte is non-zero exactly when x ≥ 0x80. |
| `Bits.OrDisjoint` | src/AHT10.c:77-78 | OR of a value shifted left by k with a value below 2^k is their sum. |
| `Bits.AndLowMask` | src/AHT10.c:78 | AND with 2^k − 1 is the remainder modulo 2^k. |
| `Bits.AndSingleBit` | src/AHT10.c:69 | AND with 2^k is 2^k if bit k is set, else 0. |
| `FixedPoint.TruncScaled` | src/AHT10.c:82 | The result is n / 2^20 rounded toward zero: below n for n ≥ 0, above it for n < 0, within one unit either way. |
| `FixedPoint.HumidityX10` | src/AHT10.c:81 | Humidity in tenths lies in [0, 999]. It is the exact raw·1000 / 2^20 rounded down. |
| `FixedPoint.TemperatureX10` | src/AHT10.c:82 | Temperature in tenths lies in [−500, 1499]. It is the exact raw·2000 / 2^20 − 500 truncated toward zero. |
| `FixedPoint.HumidityRawFor` | src/AHT10.c:81 | Every humidity value in [0, 999] is shown by some 20-bit reading. The reading returned is the smallest one: one raw unit less shows h − 1. |
| `FixedPoint.TemperatureRawFor` | src/AHT10.c:82 | Every temperature value in [−500, 1499] is shown by some 20-bit reading. |
| `FixedPoint.HumidityMonotone` | src/AHT10.c:81 | The humidity conversion is non-decreasing in the raw reading. |
| `FixedPoint.TemperatureMonotone` | src/AHT10.c:82 | The temperature conversion is non-decreasing in the raw reading. |
| `FixedPoint.TemperatureZeroBand` | src/AHT10.c:82 | The reading 0 covers exact values strictly between −0.1 and +0.1 degrees, a band twice as wide as any other. |
| `FixedPoint.TemperatureBand` | src/AHT10.c:82 | Any non-zero reading c covers one tenth of a degree. For c > 0 the band is closed below; for c < 0 it is closed above. |
| `Frame.Busy` | src/AHT10.c:69 | The busy test `data[0] & 0x80` holds exactly when the status byte is at least 0x80. |
| `Frame.HumidityRaw` | src/AHT10.c:72-74 | The humidity reading is byte1·4096 + byte2·16 + (byte3 div 16), below 2^20. |
| `Frame.TemperatureRaw` | src/AHT10.c:77-78 | The temperature reading is (byte3 mod 16)·65536 + byte4·256 + byte5, below 2^20. |
| `Frame.Pack` | src/AHT10.c:72-78 | Packing a status byte and two 20-bit readings gives a frame that unpacks to those readings: a round trip. |
| `Frame.PackUnpack` | src/AHT10.c:72-78 | Packing the status byte and the two unpacked readings gives back the frame. The readings use all 40 bits of bytes 1–5. |
| `Frame.HumidityRawFields` | src/AHT10.c:72-74 | Two frames have equal humidity readings iff they agree on bytes 1, 2 and the upper nibble of byte 3. |
| `Frame.TemperatureRawFields` | src/AHT10.c:77-78 | Two frames have equal temperature readings iff they agree on the lower nibble of byte 3 and bytes 4, 5. |
| `Bus.PollFrom` | src/AHT10.c:97-99 | A countdown wait from `left` makes at most `left` checks. A success stops at the first check that shows the flag. A failure comes after exactly `left` checks that all missed it. |
| `Bus.Poll` | src/AHT10.c:89-93 | Each wait makes at most 10000 checks. A success stops at the first check that shows the flag. A failure comes after exactly 10000 checks that all missed it. |
| `Bus.PollSeesFlag` | src/AHT10.c:89-93 | A wait succeeds iff the flag shows within its 10000 checks. |
| `Bus.WaitFor` | src/AHT10.c:110-113 | The wait loop written with its countdown variable makes the same observations and reaches the same verdict: success iff the flag shows within 10000 checks. |
| `Bus.SendAll` | src/AHT10.c:108-114 | On success the payload loop sends every byte in order. On failure it stops part-way with no STOP. It makes at most 10000 checks per byte. `Bus.SendAllWaits` says when it fails, and `Bus.SendAllFailureActions` how far it got. |
| `Bus.I2cWrite` | src/AHT10.c:88-118 | On success the bus sees exactly START, 0x70, the payload and STOP. A failure leaves a proper prefix of that, without STOP. The write makes at most (3 + len)·10000 checks. `Bus.WriteVerdict` says when it fails, and `Bus.WriteFailureActions` how far it got. |
| `Bus.ReceiveAll` | src/AHT10.c:136-148 | On success the reception loop takes exactly n bytes, each preceded by its ACK decision. A failure takes fewer bytes and issues no STOP. `Bus.ReceiveAllWaits` says when it fails, and `Bus.ReceiveAllBytes` where each byte comes from. |
| `Bus.I2cRead` | src/AHT10.c:120-152 | On success the read takes exactly len bytes, and the bus sees START, 0x71, the ACK/NACK and byte actions, and STOP. A failure never issues STOP. The read makes at most (2 + len)·10000 checks. `Bus.ReadVerdict` says when it fails, `Bus.ReadFailureActions` how far it got, and `Bus.ReadBytes` where each byte comes from. |
| `Bus.WaitsVerdict` | src/AHT10.c:108-114 | A chain of k waits, each starting where the previous ended, fails only on a timeout: a failure ends with 10000 checks that all missed the flag. A success makes at least k checks and, for k > 0, ends on a check that saw the flag. |
| `Bus.SendAllWaits` | src/AHT10.c:108-114 | The payload loop succeeds iff the chain of one wait per byte succeeds, and ends where that chain ends. |
| `Bus.WriteWaits` | src/AHT10.c:88-118 | A write succeeds iff the chain of 3 + len waits (idle, start, address, one per byte) succeeds, and ends where that chain ends. |
| `Bus.WriteVerdict` | src/AHT10.c:88-118 | A failed write ended with 10000 checks that all missed the flag. A successful one made at least 3 + len checks and ended on a check that saw the flag. |
| `Bus.ReceiveAllWaits` | src/AHT10.c:136-148 | The reception loop succeeds iff the chain of one wait per byte succeeds, and ends where that chain ends. |
| `Bus.ReadWaits` | src/AHT10.c:120-152 | A read succeeds iff the chain of 2 + len waits (start, address, one per byte) succeeds, and ends where that chain ends. |
| `Bus.ReadVerdict` | src/AHT10.c:120-152 | A failed read ended with 10000 checks that all missed the flag. A successful one made at least 2 + len checks and ended on a check that saw the flag. |
| `Bus.ReceiveAllLastByte` | src/AHT10.c:143-147 | In a successful reception loop, the last byte is the data register read right after the final check. |
| `Bus.ReceiveAllBytes` | src/AHT10.c:143-147 | In a successful reception loop, byte i is the data register read right after the (i + 1)-th wait of the loop's chain, the one that saw it arrive. |
| `Bus.ReadBytes` | src/AHT10.c:120-152 | In a successful read, byte i is the data register read right after the (3 + i)-th wait of the chain: start, address, then one wait per byte. |
| `Bus.ReadLastByte` | src/AHT10.c:143-151 | In a successful read of at least one byte, the last byte is the data register read right after the final check. |
| `Bus.SendAllFailureActions` | src/AHT10.c:108-114 | A failed payload loop sent j ≥ 1 bytes: the first j − 1 byte waits saw the flag and the j-th timed out. |
| `Bus.WriteFailureActions` | src/AHT10.c:88-118 | A failed write took one bus action per wait that passed. With k actions taken, the first k waits (idle, start, address, bytes) saw their flags and wait k + 1 timed out. So a timeout after START leaves START, and possibly bytes, on the bus without STOP. |
| `Bus.WriteFailureLength` | src/AHT10.c:88-118 | The write succeeds iff all four stages pass. A failure at the idle, start or address wait leaves 0, 1 or 2 actions. A failure in the payload loop leaves 2 plus that loop's actions. |
| `Bus.ReceiveAllFailureActions` | src/AHT10.c:136-148 | A failed reception loop's actions are a proper prefix of the reception actions for any n bytes that extend the bytes it took. |
| `Bus.ReadFailureActions` | src/AHT10.c:120-152 | A failed read's actions are a proper prefix of the full read trace for any len bytes that extend the bytes it took. It stopped part-way through the read it began. |
| `Bus.WriteSucceedsWithoutStall` | src/AHT10.c:88-118 | If no 10000 consecutive checks from the start all miss the flag, the write succeeds. |
| `Bus.ReadSucceedsWithoutStall` | src/AHT10.c:120-152 | If no 10000 consecutive checks from the start all miss the flag, the read succeeds. |
| `Bus.AddressBytes` | src/AHT10.c:101-129 | The address bytes are 0x38 shifted left: 0x70 for a write and 0x70 OR 1 = 0x71 for a read. |
| `Bus.ReceivesAckPattern` | src/AHT10.c:137-141 | Reading len bytes sets ACK before bytes 0..len−2 and clears it (NACK) before the last byte. Position 2i+1 takes byte i. |
| `Bus.WriteResponsive` | src/AHT10.c:88-118 | On a peripheral that always shows the flag, a write succeeds with one check per wait. |
| `Bus.ReadResponsive` | src/AHT10.c:120-152 | On a peripheral that always shows the flag, a read succeeds with one check per wait. |
| `Bus.WaitsResponsive` | src/AHT10.c:108-114 | On a peripheral that always shows the flag, k chained waits succeed after exactly k checks. |
| `Bus.ReadBytesResponsive` | src/AHT10.c:120-152 | On a peripheral that always shows the flag, a read succeeds with len bytes, and byte i is the data register value after check t + 2 + i. |
| `Bus.WriteStuckBusy` | src/AHT10.c:89-93 | If the bus stays busy for 10000 checks, the write fails after exactly 10000 checks. It fails before START, with no bus actions. |
| `Aht10.Decode` | src/AHT10.c:68-82 | The result is none iff the busy bit is set. Otherwise the humidity and temperature are the conversions of the unpacked readings, in [0, 999] and [−500, 1499]. |
| `Aht10.Reset` | src/AHT10.c:51-55 | The reset always ends with the 20 ms delay and reports nothing. It sends at most the command 0xBA, and exactly 0xBA framed when the write succeeds. It ends where the reset write ended. |
| `Aht10.Begin` | src/AHT10.c:14-49 | After `begin` both fields are 0, whatever the result. The result is true iff the init write [0xE1, 0x08, 0x00] succeeds, so the reset's result is ignored. The reset and 20 ms delay always come first. On success the init write and the 10 ms delay follow. On failure the actions stop short inside the init write, with no 10 ms delay. The init write starts where the reset ended, and `begin` ends where the init write ended. |
| `Aht10.Read` | src/AHT10.c:57-85 | Every failure leaves the handle unchanged. On success the 6-byte frame received after the command decodes to the new handle. The bus then saw exactly [0xAC, 0x33, 0x00], the 80 ms delay and the read of that frame. The read starts where the command write ended. `read` ends where its last transaction ended: the read if the command succeeded, otherwise the command. |
| `Aht10.ReadCommandFails` | src/AHT10.c:58-62 | If the measure command write fails, `read` returns false with the handle untouched. There is no delay and nothing is read. |
| `Aht10.ReadTransferFails` | src/AHT10.c:63-66 | If the 6-byte read fails, `read` returns false with the handle untouched, after the command and the delay. |
| `Aht10.ReadOutcome` | src/AHT10.c:62-69 | `read` succeeds iff the command write succeeds, the read succeeds and bit 7 of byte 0 is clear. If only the busy bit fails, the handle keeps its values. |
| `Aht10.BeginThenFailedRead` | src/AHT10.c:36-37 | The handle after `begin` does not depend on the handle before it. A failed `read` after `begin` keeps the zeros. |
| `Aht10.BeginSucceedsAfterFailedReset` | src/AHT10.c:40-45 | On some bus the reset write fails and `begin` still returns true. |
| `Aht10.ReadOnResponsiveBus` | src/AHT10.c:57-85 | On a responsive bus, `read` succeeds iff the received frame's busy bit is clear. It then stores that frame's decoding. |
| `Aht10.ResponsiveFrameBytes` | src/AHT10.c:57-66 | On a responsive bus, the frame `read` receives after its command has six bytes. Byte i, the status byte included, is the data register value after check t + 8 + i. |
| `Aht10.DecodeReachesEveryReading` | src/AHT10.c:81-82 | Every pair (temperature in [−500, 1499], humidity in [0, 999]) is the decoding of some frame. |
| `Aht10.DecodeIgnoresStatusBits` | src/AHT10.c:69-78 | Bits 0–6 of the status byte do not affect decoding. |
| `Aht10.ExampleFrame` | src/AHT10.c:72-82 | Frame 00 19 99 9A 66 66 holds readings 0x19999 and 0xA6666. It decodes to humidity 99 and temperature 799. |

## Left out

- Peripheral bring-up in `AHT10_begin` is not modelled: clock enable, peripheral reset pulse, GPIO pin modes, I2C clock registers and peripheral enable (src/AHT10.c:16-33). These are register writes with no software-visible result.
- `Delay_Ms` is not modelled as elapsed time. It appears only as a `DelayMs` bus action with its duration.
- The memory-mapped registers `STAR1`, `STAR2` and `DATAR` are not modelled bit by bit. Each flag poll is one observation of the oracle `Hw`, and each data-register read is `Hw.data` at that observation.
- The `(void)I2C1->STAR2` read that clears the address flag (src/AHT10.c:106, 134) is not modelled. It does not consume an observation.
- IEEE-754 `double` arithmetic is not modelled. The exact integer equivalent of the conversions is modelled instead.
- On a failed `i2c_read`, the model returns only the bytes received so far. In C, the rest of the caller's buffer keeps whatever it held. `AHT10_read` never looks at the buffer after a failure, so this is not observable.
- The `uint8_t len` parameter of the transactions is modelled as a precondition `len <= 255`, so the `uint8_t` loop counter cannot wrap.
- `example/main.c` is not part of this model: the polling loop, `printf` formatting and `SystemInit`.
- Concurrent use of the handle or the bus is not modelled. The driver has no locking and is single-threaded by design.

=== FILE: aht10.dfy ===
/**
 The AHT10 protocol layer: the device handle, the three command sequences
 `AHT10_begin`, `AHT10_reset` and `AHT10_read`, and the decoding of the 6-byte
 measurement frame into tenths of a degree and tenths of a percent.

 Each operation is a function of the handle, the peripheral oracle and the
 observation index at which it starts; it returns the new handle, its result,
 the next observation index and the bus actions it took, settling delays
 included.
 */
module Aht10 {
  import opened Bits
  import opened Wrappers
  import opened Bus
  import Frame
  import FixedPoint

  /** The device handle `AHT10_Dev`. */
  datatype Dev = Dev(temperatureX10: FixedPoint.int16, humidityX10: FixedPoint.int16)

  /** Soft reset, `AHT10_RESET_CMD`. */
  const RESET_CMD: seq<byte> := [0xBA]

  /** Initialisation, `AHT10_INIT_CMD` with its two parameter bytes. */
  const INIT_CMD: seq<byte> := [0xE1, 0x08, 0x00]

  /** Trigger a measurement, `AHT10_MEASURE_CMD` with its two parameter bytes. */
  const MEASURE_CMD: seq<byte> := [0xAC, 0x33, 0x00]

  /** Settling delays in milliseconds. */
  const RESET_DELAY: nat := 20
  const INIT_DELAY: nat := 10
  const MEASURE_DELAY: nat := 80

  /** The result of an operation that reports nothing: next observation index and bus actions. */
  datatype Trail = Trail(next: nat, events: seq<Event>)

  /** The result of `begin` or `read`: the returned bool, the handle afterwards, next index, bus actions. */
  datatype Outcome = Outcome(ok: bool, dev: Dev, next: nat, events: seq<Event>)

  /**
   Decode a measurement frame. A frame whose busy bit is set yields nothing;
   otherwise both readings are unpacked and converted, and they always lie in
   the ranges the transfer functions can produce, -50.0 to 149.9 degrees and
   0.0 to 99.9 percent.
   */
  function Decode(frame: seq<byte>): (r: Option<Dev>)
    requires |frame| == Frame.FRAME_LEN
    ensures r.None? <==> frame[0] >= 0x80
    ensures r.Some? ==> -500 <= r.value.temperatureX10 <= 1499
    ensures r.Some? ==> 0 <= r.value.humidityX10 <= 999
    ensures r.Some? ==>
      && r.value.humidityX10 == FixedPoint.HumidityX10(
           (frame[1] as nat) * 0x1000 + (frame[2] as nat) * 0x10 + (frame[3] as nat) / 0x10)
      && r.value.temperatureX10 == FixedPoint.TemperatureX10(
           ((frame[3] as nat) % 0x10) * 0x1_0000 + (frame[4] as nat) * 0x100 + frame[5] as nat)
  {
    if Frame.Busy(frame) then None
    else
      Some(Dev(FixedPoint.TemperatureX10(Frame.TemperatureRaw(frame)),
               FixedPoint.HumidityX10(Frame.HumidityRaw(frame))))
  }

  /** The bus actions of a successful measurement that received frame. */
  function MeasureTrace(frame: seq<byte>): seq<Event>
  {
    WriteTrace(MEASURE_CMD) + [DelayMs(MEASURE_DELAY)] + ReadTrace(frame)
  }

  /**
   `AHT10_reset`: send the reset command and wait 20 ms. The write's result is
   dropped: whatever the bus did, the delay follows and nothing is reported.
   The reset ends where its write ended, which is where `begin` continues.
   */
  function Reset(hw: Hw, t: nat): (r: Trail)
    ensures t < r.next <= t + 4 * POLL_LIMIT
    ensures r.next == I2cWrite(hw, t, RESET_CMD).next
    ensures |r.events| > 0 && r.events[|r.events| - 1] == DelayMs(RESET_DELAY)
    ensures r.events[..|r.events| - 1] <= WriteTrace(RESET_CMD)
    ensures I2cWrite(hw, t, RESET_CMD).ok ==> r.events == WriteTrace(RESET_CMD) + [DelayMs(RESET_DELAY)]
  {
    var w := I2cWrite(hw, t, RESET_CMD);
    assert (w.events + [DelayMs(RESET_DELAY)])[..|w.events|] == w.events;
    Trail(w.next, w.events + [DelayMs(RESET_DELAY)])
  }

  /**
   `AHT10_begin` after the peripheral bring-up: zero the handle, reset the
   sensor and wait 20 ms, send the initialisation command and, if that write
   succeeded, wait 10 ms. The handle is zero afterwards whatever happens; the
   reset's outcome is ignored, so the result is exactly the success of the
   initialisation write.
   */
  function Begin(dev: Dev, hw: Hw, t: nat): (r: Outcome)
    ensures r.dev == Dev(0, 0)
    ensures r.ok <==> I2cWrite(hw, Reset(hw, t).next, INIT_CMD).ok
    ensures Reset(hw, t).events + [DelayMs(RESET_DELAY)] <= r.events
    ensures r.ok ==> (r.events ==
      Reset(hw, t).events + [DelayMs(RESET_DELAY)] + WriteTrace(INIT_CMD) + [DelayMs(INIT_DELAY)])
    ensures !r.ok ==> r.events < Reset(hw, t).events + [DelayMs(RESET_DELAY)] + WriteTrace(INIT_CMD)
    ensures t < r.next <= t + 10 * POLL_LIMIT
    ensures r.next == I2cWrite(hw, Reset(hw, t).next, INIT_CMD).next
  {
    var zeroed := Dev(0, 0);
    var reset := Reset(hw, t);
    var init := I2cWrite(hw, reset.next, INIT_CMD);
    var events := reset.events + [DelayMs(RESET_DELAY)] + init.events;
    if !init.ok then
      Outcome(false, zeroed, init.next, events)
    else
      Outcome(true, zeroed, init.next, events + [DelayMs(INIT_DELAY)])
  }

  /** The frame `read` receives: the bytes of the 6-byte read that follows the measurement command. */
  function MeasuredFrame(hw: Hw, t: nat): seq<byte>
  {
    I2cRead(hw, I2cWrite(hw, t, MEASURE_CMD).next, Frame.FRAME_LEN).bytes
  }

  /**
   `AHT10_read`: send the measurement command, wait 80 ms, read the 6-byte
   frame, reject it if the busy bit is set, otherwise store both readings.
   Every failure leaves the handle exactly as it was; a success stores the
   decoding of the frame that was received, and the bus saw exactly the
   measurement command, the delay and the reading of that frame.
   */
  function Read(dev: Dev, hw: Hw, t: nat): (r: Outcome)
    ensures !r.ok ==> r.dev == dev
    ensures r.ok ==> |MeasuredFrame(hw, t)| == Frame.FRAME_LEN
    ensures r.ok ==> Decode(MeasuredFrame(hw, t)) == Some(r.dev)
    ensures r.ok ==> r.events == MeasureTrace(MeasuredFrame(hw, t))
    ensures t < r.next <= t + 14 * POLL_LIMIT
    ensures var cmd := I2cWrite(hw, t, MEASURE_CMD);
      r.next == if cmd.ok then I2cRead(hw, cmd.next, Frame.FRAME_LEN).next else cmd.next
  {
    var cmd := I2cWrite(hw, t, MEASURE_CMD);
    if !cmd.ok then Outcome(false, dev, cmd.next, cmd.events)
    else
      var rx := I2cRead(hw, cmd.next, Frame.FRAME_LEN);
      var events := cmd.events + [DelayMs(MEASURE_DELAY)] + rx.events;
      if !rx.ok then Outcome(false, dev, rx.next, events)
      else
        match Decode(rx.bytes)
        case None => Outcome(false, dev, rx.next, events)
        case Some(reading) =>
          assert events == MeasureTrace(rx.bytes);
          Outcome(true, reading, rx.next, events)
  }

  /**
   If the measurement command cannot be written, `read` fails at once: the
   handle is unchanged, no delay is taken and nothing is read.
   */
  lemma ReadCommandFails(dev: Dev, hw: Hw, t: nat)
    requires !I2cWrite(hw, t, MEASURE_CMD).ok
    ensures !Read(dev, hw, t).ok && Read(dev, hw, t).dev == dev
    ensures Read(dev, hw, t).events < WriteTrace(MEASURE_CMD)
  {
  }

  /**
   If the command was sent but the frame cannot be read, `read` fails with the
   handle unchanged, after the command and the 80 ms delay.
   */
  lemma ReadTransferFails(dev: Dev, hw: Hw, t: nat)
    requires I2cWrite(hw, t, MEASURE_CMD).ok
    requires !I2cRead(hw, I2cWrite(hw, t, MEASURE_CMD).next, Frame.FRAME_LEN).ok
    ensures !Read(dev, hw, t).ok && Read(dev, hw, t).dev == dev
    ensures WriteTrace(MEASURE_CMD) + [DelayMs(MEASURE_DELAY)] <= Read(dev, hw, t).events
  {
  }

  /**
   `read` succeeds exactly when the command is written, the frame is read and
   its busy bit is clear; a received frame with the busy bit set is rejected
   and the handle keeps its previous readings.
   */
  lemma ReadOutcome(dev: Dev, hw: Hw, t: nat)
    ensures var cmd := I2cWrite(hw, t, MEASURE_CMD);
      var rx := I2cRead(hw, cmd.next, Frame.FRAME_LEN);
      && (Read(dev, hw, t).ok <==> cmd.ok && rx.ok && rx.bytes[0] < 0x80)
      && (cmd.ok && rx.ok && rx.bytes[0] >= 0x80 ==> Read(dev, hw, t).dev == dev)
  {
  }

  /**
   The handle after `begin` does not depend on the handle before, and a
   failed `read` after it keeps the zero readings.
   */
  lemma BeginThenFailedRead(d1: Dev, d2: Dev, hw: Hw, t: nat)
    ensures Begin(d1, hw, t).dev == Begin(d2, hw, t).dev
    ensures var b := Begin(d1, hw, t);
      !Read(b.dev, hw, b.next).ok ==> Read(b.dev, hw, b.next).dev == Dev(0, 0)
  {
  }

  /**
   The reset's result really is ignored: on a bus that stays busy through the
   whole reset write and is responsive afterwards, the reset fails and `begin`
   still succeeds.
   */
  lemma BeginSucceedsAfterFailedReset()
    ensures var hw := Hw(k => k >= POLL_LIMIT, k => 0);
      && !I2cWrite(hw, 0, RESET_CMD).ok
      && Begin(Dev(0, 0), hw, 0).ok
  {
    var hw := Hw(k => k >= POLL_LIMIT, k => 0);
    WriteStuckBusy(hw, 0, RESET_CMD);
    assert Reset(hw, 0).next == POLL_LIMIT;
    WriteResponsive(hw, POLL_LIMIT, INIT_CMD);
  }

  /**
   With a responsive bus, a `read` that receives frame succeeds exactly when
   the busy bit is clear, and then stores the frame's decoding.
   ResponsiveFrameBytes says where the frame's bytes come from.
   */
  lemma ReadOnResponsiveBus(dev: Dev, hw: Hw, t: nat)
    requires forall k :: t <= k ==> hw.ready(k)
    ensures var frame := I2cRead(hw, t + 6, Frame.FRAME_LEN).bytes;
      && |frame| == Frame.FRAME_LEN
      && (Read(dev, hw, t).ok <==> frame[0] < 0x80)
      && (Read(dev, hw, t).ok ==> Some(Read(dev, hw, t).dev) == Decode(frame))
  {
    WriteResponsive(hw, t, MEASURE_CMD);
    ReadResponsive(hw, t + 6, Frame.FRAME_LEN);
  }

  /**
   On a responsive bus, the frame that `read` receives after its command is
   the data register read after observations t + 8 to t + 13: six waits for
   the command, then start, address and one wait per byte. Byte i follows
   observation t + 8 + i.
   */
  lemma ResponsiveFrameBytes(hw: Hw, t: nat, i: nat)
    requires forall k :: t <= k ==> hw.ready(k)
    requires i < Frame.FRAME_LEN
    ensures |I2cRead(hw, t + 6, Frame.FRAME_LEN).bytes| == Frame.FRAME_LEN
    ensures I2cRead(hw, t + 6, Frame.FRAME_LEN).bytes[i] == hw.data(t + 8 + i)
  {
    ReadResponsive(hw, t + 6, Frame.FRAME_LEN);
    ReadBytes(hw, t + 6, Frame.FRAME_LEN, i);
    WaitsResponsive(hw.ready, t + 6, 3 + i);
  }

  /**
   Every reading in the ranges the transfer functions can produce comes from
   some frame: the decoder's image is exactly [-500, 1499] by [0, 999].
   */
  lemma DecodeReachesEveryReading(c: int, h: int)
    requires -500 <= c <= 1499 && 0 <= h <= 999
    ensures var frame := Frame.Pack(0, FixedPoint.HumidityRawFor(h), FixedPoint.TemperatureRawFor(c));
      Decode(frame) == Some(Dev(c as FixedPoint.int16, h as FixedPoint.int16))
  {
  }

  /**
   The status byte matters only through its busy bit: two frames that agree
   on bytes 1 to 5 and on bit 7 of byte 0 decode alike.
   */
  lemma DecodeIgnoresStatusBits(f: seq<byte>, g: seq<byte>)
    requires |f| == Frame.FRAME_LEN && |g| == Frame.FRAME_LEN
    requires f[1..] == g[1..] && (f[0] >= 0x80 <==> g[0] >= 0x80)
    ensures Decode(f) == Decode(g)
  {
    assert forall i | 1 <= i < Frame.FRAME_LEN :: f[i] == g[i] by {
      forall i | 1 <= i < Frame.FRAME_LEN ensures f[i] == g[i] {
        assert f[i] == f[1..][i - 1];
      }
    }
  }

  /**
   A worked frame: 00 19 99 9A 66 66 carries humidity 0x19999 and temperature
   0xA6666, which read as 9.9 percent and 79.9 degrees: both exact values fall
   just short of 10.0 and 80.0 and are truncated.
   */
  lemma ExampleFrame(frame: seq<byte>)
    requires frame == [0x00, 0x19, 0x99, 0x9A, 0x66, 0x66]
    ensures Frame.HumidityRaw(frame) == 0x19999
    ensures Frame.TemperatureRaw(frame) == 0xA6666
    ensures Decode(frame) == Some(Dev(799, 99))
  {
    ExampleReadings(frame);
    ExampleConversions();
  }

  /** The example readings convert to 9.9 %RH and 79.9 degrees. */
  lemma ExampleConversions()
    ensures FixedPoint.HumidityX10(0x19999) == 99
    ensures FixedPoint.TemperatureX10(0xA6666) == 799
  {
  }

  /** The two 20-bit readings of the example frame. */
  lemma ExampleReadings(frame: seq<byte>)
    requires frame == [0x00, 0x19, 0x99, 0x9A, 0x66, 0x66]
    ensures Frame.HumidityRaw(frame) == 0x19999
    ensures Frame.TemperatureRaw(frame) == 0xA6666
  {
    assert frame[1] == 0x19 && frame[2] == 0x99 && frame[3] == 0x9A;
    assert frame[4] == 0x66 && frame[5] == 0x66;
  }
}

=== FILE: bits.dfy ===
/**
 The C operators the AHT10 driver uses on unsigned integers — `<<` on a
 `uint32_t`, `>>`, `|` and `&` — defined on natural numbers, together with the
 facts that turn the frame decoder's bit manipulation into plain arithmetic:
 OR-ing fields that do not overlap adds them, AND-ing with a low mask takes a
 remainder, and AND-ing with a single bit tests that bit.
 */
module Bits {

  /** An 8-bit unsigned value (`uint8_t`). */
  type byte = x: nat | x < 0x100

  function Pow2(n: nat): (p: nat)
    ensures p >= 1
  {
    if n == 0 then 1 else 2 * Pow2(n - 1)
  }

  /**
   `x << n` evaluated in a `uint32_t`: bits shifted past bit 31 are lost, so the
   result is always below 2^32, and it is x * 2^n exactly when that fits.
   */
  function ShiftLeft32(x: nat, n: nat): (r: nat)
    ensures r < 0x1_0000_0000
    ensures x * Pow2(n) < 0x1_0000_0000 ==> r == x * Pow2(n)
  {
    (x * Pow2(n)) % 0x1_0000_0000
  }

  /** `x >> n` on an unsigned value: n halvings, each dropping the lowest bit, never larger than x. */
  function ShiftRight(x: nat, n: nat): (r: nat)
    ensures r <= x
    ensures n > 0 && x > 0 ==> r < x
  {
    if n == 0 then x else ShiftRight(x / 2, n - 1)
  }

  /**
   Bitwise OR, defined bit by bit from the least significant bit. OR only sets
   bits, so the result is at least each operand; it never carries, so it is at
   most their sum.
   */
  function BitOr(a: nat, b: nat): (r: nat)
    ensures a <= r && b <= r
    ensures r <= a + b
    decreases a + b
  {
    if a == 0 && b == 0 then 0
    else 2 * BitOr(a / 2, b / 2) + (if a % 2 == 1 || b % 2 == 1 then 1 else 0)
  }

  /** Bitwise AND, defined bit by bit from the least significant bit. */
  function BitAnd(a: nat, b: nat): nat
    decreases a + b
  {
    if a == 0 || b == 0 then 0
    else 2 * BitAnd(a / 2, b / 2) + (if a % 2 == 1 && b % 2 == 1 then 1 else 0)
  }

  /** AND only clears bits: the result is at most either operand. */
  lemma {:induction false} AndBounds(a: nat, b: nat)
    ensures BitAnd(a, b) <= a && BitAnd(a, b) <= b
    decreases a + b
  {
    if a != 0 && b != 0 {
      AndBounds(a / 2, b / 2);
    }
  }

  lemma Pow2Values()
    ensures Pow2(1) == 2 && Pow2(4) == 0x10 && Pow2(7) == 0x80
    ensures Pow2(8) == 0x100 && Pow2(16) == 0x1_0000
  {
  }

  lemma {:induction false} OrZero(a: nat)
    ensures BitOr(a, 0) == a
    decreases a
  {
    if a != 0 {
      OrZero(a / 2);
    }
  }

  /** OR-ing a value shifted left by k with a value that fits in k bits is addition. */
  lemma {:induction false} OrDisjoint(a: nat, b: nat, k: nat)
    requires b < Pow2(k)
    ensures BitOr(a * Pow2(k), b) == a * Pow2(k) + b
    decreases k
  {
    if k == 0 {
      OrZero(a);
    } else {
      var p := Pow2(k - 1);
      assert a * Pow2(k) == 2 * (a * p);
      OrDisjoint(a, b / 2, k - 1);
    }
  }

  lemma MulAwayFromZero(d: int, z: int)
    requires d > 0
    ensures z >= 1 ==> d * z >= d
    ensures z <= -1 ==> d * z <= -d
  {
    if z >= 1 {
      assert d * z == d + d * (z - 1);
    } else if z <= -1 {
      assert d * z == -d + d * (z + 1);
    }
  }

  /** Quotient and remainder are the only ones: x == d * q + m with 0 <= m < d fixes both. */
  lemma DivModUnique(x: nat, d: nat, q: nat, m: nat)
    requires d > 0 && x == d * q + m && m < d
    ensures x / d == q && x % d == m
  {
    var q' := x / d;
    assert d * (q - q') == x % d - m;
    MulAwayFromZero(d, q - q');
  }

  /** Dividing by 2p is halving and then dividing by p; the remainder keeps the dropped bit. */
  lemma HalveDivMod(x: nat, p: nat)
    requires p > 0
    ensures x / (2 * p) == (x / 2) / p
    ensures x % (2 * p) == 2 * ((x / 2) % p) + x % 2
  {
    var q := (x / 2) / p;
    var u := (x / 2) % p;
    assert x / 2 == p * q + u;
    assert x == (2 * p) * q + (2 * u + x % 2);
    DivModUnique(x, 2 * p, q, 2 * u + x % 2);
  }

  /** AND with a mask whose lowest bit is set keeps bit 0 and recurses on the rest. */
  lemma AndOddMask(x: nat, m: nat)
    requires x != 0
    ensures BitAnd(x, 2 * m + 1) == 2 * BitAnd(x / 2, m) + x % 2
  {
    assert (2 * m + 1) / 2 == m && (2 * m + 1) % 2 == 1;
  }

  /** AND with a mask of k one-bits keeps the value modulo 2^k. */
  lemma {:induction false} AndLowMask(x: nat, k: nat)
    ensures BitAnd(x, Pow2(k) - 1) == x % Pow2(k)
    decreases k
  {
    if k > 0 {
      var p := Pow2(k - 1);
      if x == 0 {
        assert 0 % (2 * p) == 0;
      } else {
        AndOddMask(x, p - 1);
        AndLowMask(x / 2, k - 1);
        HalveDivMod(x, p);
      }
    }
  }

  /** AND with an even mask 2p drops bit 0 and recurses on the halves. */
  lemma AndEvenMask(x: nat, p: nat)
    requires p > 0
    ensures BitAnd(x, 2 * p) == 2 * BitAnd(x / 2, p)
  {
    assert (2 * p) / 2 == p && (2 * p) % 2 == 0;
  }

  /** AND with the single bit 2^k is 2^k exactly when bit k of x is set, and 0 otherwise. */
  lemma {:induction false} AndSingleBit(x: nat, k: nat)
    ensures BitAnd(x, Pow2(k)) == Pow2(k) * ((x / Pow2(k)) % 2)
    decreases k
  {
    if k > 0 {
      var p := Pow2(k - 1);
      AndEvenMask(x, p);
      AndSingleBit(x / 2, k - 1);
      HalveDivMod(x, p);
    }
  }

  /** Shifting right by n divides by 2^n, rounding down. */
  lemma {:induction false} ShiftRightDiv(x: nat, n: nat)
    ensures ShiftRight(x, n) == x / Pow2(n)
    decreases n
  {
    if n > 0 {
      ShiftRightDiv(x / 2, n - 1);
      HalveDivMod(x, Pow2(n - 1));
    }
  }

  /**
   `((uint32_t)a << 16) | ((uint32_t)b << 8) | c` for three bytes: the bytes
   land in disjoint bit ranges of the 32-bit word, nothing is shifted out, and
   the whole expression is the base-256 number a b c.
   */
  lemma ConcatBytes(a: byte, b: byte, c: byte)
    ensures BitOr(BitOr(ShiftLeft32(a, 16), ShiftLeft32(b, 8)), c) == a * 0x1_0000 + b * 0x100 + c
  {
    Pow2Values();
    assert ShiftLeft32(a, 16) == a * Pow2(16);
    assert ShiftLeft32(b, 8) == b * 0x100;
    OrDisjoint(a, b * 0x100, 16);
    assert a * 0x1_0000 + b * 0x100 == (a * 0x100 + b) * Pow2(8);
    OrDisjoint(a * 0x100 + b, c, 8);
  }

  /** `x & 0x0F` keeps the low nibble of x. */
  lemma LowNibble(x: nat)
    ensures BitAnd(x, 0x0F) == x % 0x10
  {
    Pow2Values();
    AndLowMask(x, 4);
  }

  /** `x & 0x80` on a byte is non-zero exactly when the byte is at least 0x80. */
  lemma HighBit(x: byte)
    ensures BitAnd(x, 0x80) != 0 <==> x >= 0x80
  {
    Pow2Values();
    AndSingleBit(x, 7);
  }
}

=== FILE: bus.dfy ===
/**
 The driver's two I2C master transactions, `i2c_write` and `i2c_read`, as
 generators of the bus actions they take.

 The peripheral is an oracle `Hw`. Every time the driver reads a status flag it
 makes one observation; the t-th observation says whether the condition being
 waited for holds (bus idle, start condition sent, address acknowledged, byte
 transferred, byte received). A data-register read right after observation t
 yields `data(t)`. A transaction starts at an observation index and returns
 the index after the last observation it made, so transactions compose.
 */
module Bus {
  import opened Bits

  /** The countdown every wait loop starts from. */
  const POLL_LIMIT: nat := 10000

  /** The sensor's 7-bit bus address. */
  const ADDRESS: byte := 0x38

  /** `AHT10_ADDR << 1`: the address byte of a write transaction. */
  const WRITE_ADDRESS: byte := ADDRESS * 2

  /** `(AHT10_ADDR << 1) | 0x01`: the address byte of a read transaction. */
  const READ_ADDRESS: byte := ADDRESS * 2 + 1

  datatype Hw = Hw(ready: nat -> bool, data: nat -> byte)

  /** What the driver does on the bus, in order. */
  datatype Event =
    | Start             // CTLR1.START set: request a start condition
    | Send(b: byte)     // a byte written to DATAR for transmission
    | Ack(on: bool)     // CTLR1.ACK set (true) or cleared (false) before a reception
    | Receive(b: byte)  // a byte taken from DATAR
    | Stop              // CTLR1.STOP set: request a stop condition
    | DelayMs(ms: nat)  // a blocking settling delay

  /** The outcome of one wait loop: whether the flag was seen, and the next observation index. */
  datatype Wait = Wait(seen: bool, next: nat)

  /** The outcome of a transaction: success, next observation index, bus actions, bytes received. */
  datatype Xfer = Xfer(ok: bool, next: nat, events: seq<Event>, bytes: seq<byte>)

  /**
   The wait loop `while (!flag) { if (--timeout == 0) return false; }` entered
   at observation t with `left` as the countdown.
   */
  function PollFrom(ready: nat -> bool, t: nat, left: nat): (w: Wait)
    requires left >= 1
    ensures t < w.next <= t + left
    ensures w.seen ==> ready(w.next - 1) && forall k :: t <= k < w.next - 1 ==> !ready(k)
    ensures !w.seen ==> w.next == t + left && forall k :: t <= k < t + left ==> !ready(k)
    decreases left
  {
    if ready(t) then Wait(true, t + 1)
    else if left - 1 == 0 then Wait(false, t + 1)
    else PollFrom(ready, t + 1, left - 1)
  }

  /** The POLL_LIMIT observations from s on all miss the flag: a wait entered at s times out. */
  predicate Stalled(ready: nat -> bool, s: nat)
  {
    forall k :: s <= k < s + POLL_LIMIT ==> !ready(k)
  }

  /**
   One wait of the driver: a success stops at the first observation of the
   flag, a failure comes after POLL_LIMIT observations that all missed it, and
   it never makes more than POLL_LIMIT checks. PollSeesFlag restates this as
   an if-and-only-if.
   */
  function Poll(ready: nat -> bool, t: nat): (w: Wait)
    ensures t < w.next <= t + POLL_LIMIT
    ensures w.seen ==> ready(w.next - 1) && forall k :: t <= k < w.next - 1 ==> !ready(k)
    ensures !w.seen ==> w.next == t + POLL_LIMIT && Stalled(ready, t)
  {
    PollFrom(ready, t, POLL_LIMIT)
  }

  /** A wait succeeds exactly when the flag is observed within POLL_LIMIT checks. */
  lemma PollSeesFlag(ready: nat -> bool, t: nat)
    ensures Poll(ready, t).seen <==> exists k :: t <= k < t + POLL_LIMIT && ready(k)
  {
    var w := Poll(ready, t);
    if w.seen {
      assert ready(w.next - 1);
    }
  }

  /**
   The wait loop as the driver writes it, with its countdown variable; it makes
   the same observations and reaches the same verdict as Poll.
   */
  method WaitFor(ready: nat -> bool, t: nat) returns (seen: bool, next: nat)
    ensures t < next <= t + POLL_LIMIT
    ensures seen <==> exists k :: t <= k < t + POLL_LIMIT && ready(k)
    ensures seen ==> ready(next - 1) && forall k :: t <= k < next - 1 ==> !ready(k)
    ensures Wait(seen, next) == Poll(ready, t)
  {
    PollSeesFlag(ready, t);
    var timeout := POLL_LIMIT;
    var k := t;
    while !ready(k)
      invariant 1 <= timeout <= POLL_LIMIT
      invariant k == t + (POLL_LIMIT - timeout)
      invariant forall j :: t <= j < k ==> !ready(j)
      invariant PollFrom(ready, k, timeout) == Poll(ready, t)
      decreases timeout
    {
      assert PollFrom(ready, k, timeout) ==
        if timeout - 1 == 0 then Wait(false, k + 1) else PollFrom(ready, k + 1, timeout - 1);
      timeout := timeout - 1;
      if timeout == 0 {
        return false, k + 1;
      }
      k := k + 1;
    }
    assert PollFrom(ready, k, timeout) == Wait(true, k + 1);
    return true, k + 1;
  }

  /** The actions of transmitting the payload: one data-register write per byte, never a STOP. */
  function Sends(data: seq<byte>): (events: seq<Event>)
    ensures |events| == |data| && Stop !in events
  {
    if |data| == 0 then [] else [Send(data[0])] + Sends(data[1..])
  }

  /**
   The actions of receiving bytes: before each byte the acknowledge bit is set,
   except before the last byte, where it is cleared so that the sensor gets a
   NACK; then the byte is taken.
   */
  function Receives(bytes: seq<byte>): seq<Event>
  {
    if |bytes| == 0 then []
    else [Ack(|bytes| > 1), Receive(bytes[0])] + Receives(bytes[1..])
  }

  /** The complete bus actions of a successful `i2c_write` of data. */
  function WriteTrace(data: seq<byte>): seq<Event>
  {
    [Start, Send(WRITE_ADDRESS)] + Sends(data) + [Stop]
  }

  /** The complete bus actions of a successful `i2c_read` that received bytes. */
  function ReadTrace(bytes: seq<byte>): seq<Event>
  {
    [Start, Send(READ_ADDRESS)] + Receives(bytes) + [Stop]
  }

  /** The payload loop of `i2c_write`: send a byte, wait for byte-transfer-finished, repeat. */
  function SendAll(hw: Hw, t: nat, data: seq<byte>): (x: Xfer)
    ensures t <= x.next <= t + |data| * POLL_LIMIT
    ensures x.ok ==> x.events == Sends(data)
    ensures !x.ok ==> 0 < |x.events| && x.events <= Sends(data)
    ensures x.bytes == []
    decreases |data|
  {
    if |data| == 0 then Xfer(true, t, [], [])
    else
      var sent := Poll(hw.ready, t);
      if !sent.seen then Xfer(false, sent.next, [Send(data[0])], [])
      else
        var rest := SendAll(hw, sent.next, data[1..]);
        Xfer(rest.ok, rest.next, [Send(data[0])] + rest.events, [])
  }

  /**
   `i2c_write`: wait for the bus to be idle, start, send the write address,
   wait for the acknowledgement, send the payload, stop. On success the bus
   sees exactly WriteTrace(data); a failure happens part-way through it and
   never issues STOP. Every wait is bounded, so the transaction makes at most
   (3 + |data|) * POLL_LIMIT observations; WriteVerdict says when it fails.
   */
  function I2cWrite(hw: Hw, t: nat, data: seq<byte>): (x: Xfer)
    requires |data| <= 0xFF
    ensures t < x.next <= t + (3 + |data|) * POLL_LIMIT
    ensures x.ok ==> x.events == WriteTrace(data)
    ensures !x.ok ==> x.events < WriteTrace(data) && Stop !in x.events
    ensures x.bytes == []
  {
    var idle := Poll(hw.ready, t);
    if !idle.seen then Xfer(false, idle.next, [], [])
    else
      var started := Poll(hw.ready, idle.next);
      if !started.seen then Xfer(false, started.next, [Start], [])
      else
        var addressed := Poll(hw.ready, started.next);
        if !addressed.seen then Xfer(false, addressed.next, [Start, Send(WRITE_ADDRESS)], [])
        else
          var body := SendAll(hw, addressed.next, data);
          Xfer(body.ok, body.next,
               [Start, Send(WRITE_ADDRESS)] + body.events + (if body.ok then [Stop] else []), [])
  }

  /**
   The reception loop of `i2c_read` with n bytes still to come: set the
   acknowledge bit unless this is the last byte, wait for receive-buffer-not-
   empty, take the byte, repeat. ReceiveAllBytes says which observation
   each byte follows.
   */
  function ReceiveAll(hw: Hw, t: nat, n: nat): (x: Xfer)
    ensures t <= x.next <= t + n * POLL_LIMIT
    ensures x.ok ==> |x.bytes| == n && x.events == Receives(x.bytes)
    ensures !x.ok ==> |x.bytes| < n && Stop !in x.events
    decreases n
  {
    if n == 0 then Xfer(true, t, [], [])
    else
      var received := Poll(hw.ready, t);
      if !received.seen then Xfer(false, received.next, [Ack(n > 1)], [])
      else
        var b := hw.data(received.next - 1);
        var rest := ReceiveAll(hw, received.next, n - 1);
        Xfer(rest.ok, rest.next, [Ack(n > 1), Receive(b)] + rest.events, [b] + rest.bytes)
  }

  /**
   `i2c_read`: start (without first waiting for an idle bus), send the read
   address, wait for the acknowledgement, receive len bytes, stop. On success
   exactly len bytes arrive and the bus sees exactly ReadTrace of them; a
   failure never issues STOP and returns fewer than len bytes; ReadVerdict says
   when it fails and ReadBytes where each byte comes from.
   */
  function I2cRead(hw: Hw, t: nat, len: nat): (x: Xfer)
    requires len <= 0xFF
    ensures t < x.next <= t + (2 + len) * POLL_LIMIT
    ensures x.ok ==> |x.bytes| == len && x.events == ReadTrace(x.bytes)
    ensures !x.ok ==> (|x.bytes| < len || x.bytes == []) && Stop !in x.events
    ensures 0 < |x.events| && x.events[0] == Start
  {
    var started := Poll(hw.ready, t);
    if !started.seen then Xfer(false, started.next, [Start], [])
    else
      var addressed := Poll(hw.ready, started.next);
      if !addressed.seen then Xfer(false, addressed.next, [Start, Send(READ_ADDRESS)], [])
      else
        var body := ReceiveAll(hw, addressed.next, len);
        Xfer(body.ok, body.next,
             [Start, Send(READ_ADDRESS)] + body.events + (if body.ok then [Stop] else []),
             body.bytes)
  }

  /**
   k waits in sequence from observation t, as a transaction makes them: each
   wait starts where the previous one ended, and the first that times out
   ends the chain. Every transaction's verdict and end are those of such a
   chain (SendAllWaits, WriteWaits, ReceiveAllWaits, ReadWaits).
   */
  function Waits(ready: nat -> bool, t: nat, k: nat): Wait
    decreases k
  {
    if k == 0 then Wait(true, t)
    else
      var first := Poll(ready, t);
      if !first.seen then first else Waits(ready, first.next, k - 1)
  }

  /**
   A chain of waits fails only when one of them times out: a failure ends with
   POLL_LIMIT observations that all missed the flag. A success makes at least
   one observation per wait and, unless the chain is empty, ends on an
   observation that saw the flag.
   */
  lemma {:induction false} WaitsVerdict(ready: nat -> bool, t: nat, k: nat)
    ensures var w := Waits(ready, t, k);
      && (w.seen ==> t + k <= w.next && if k == 0 then w.next == t else ready(w.next - 1))
      && (!w.seen ==> t + POLL_LIMIT <= w.next && Stalled(ready, w.next - POLL_LIMIT))
    decreases k
  {
    if k > 0 {
      var first := Poll(ready, t);
      if first.seen {
        WaitsVerdict(ready, first.next, k - 1);
      }
    }
  }

  /** The payload loop is one wait per byte: its verdict and end are those of |data| chained waits. */
  lemma {:induction false} SendAllWaits(hw: Hw, t: nat, data: seq<byte>)
    ensures SendAll(hw, t, data).ok == Waits(hw.ready, t, |data|).seen
    ensures SendAll(hw, t, data).next == Waits(hw.ready, t, |data|).next
    decreases |data|
  {
    if |data| > 0 {
      var sent := Poll(hw.ready, t);
      if sent.seen {
        SendAllWaits(hw, sent.next, data[1..]);
      }
    }
  }

  /**
   `i2c_write` is 3 + |data| waits in sequence (idle, start, address, one per
   byte): its verdict and end are those of the chain.
   */
  lemma WriteWaits(hw: Hw, t: nat, data: seq<byte>)
    requires |data| <= 0xFF
    ensures I2cWrite(hw, t, data).ok == Waits(hw.ready, t, 3 + |data|).seen
    ensures I2cWrite(hw, t, data).next == Waits(hw.ready, t, 3 + |data|).next
  {
    var idle := Poll(hw.ready, t);
    var started := Poll(hw.ready, idle.next);
    var addressed := Poll(hw.ready, started.next);
    assert Waits(hw.ready, t, 3 + |data|) ==
      if idle.seen then Waits(hw.ready, idle.next, 2 + |data|) else idle;
    assert Waits(hw.ready, idle.next, 2 + |data|) ==
      if started.seen then Waits(hw.ready, started.next, 1 + |data|) else started;
    assert Waits(hw.ready, started.next, 1 + |data|) ==
      if addressed.seen then Waits(hw.ready, addressed.next, |data|) else addressed;
    SendAllWaits(hw, addressed.next, data);
  }

  /**
   `i2c_write` fails exactly on a stall: a failure ends with POLL_LIMIT
   observations that all missed the flag, and a success made at least one
   observation per wait and ended on one that saw its flag.
   */
  lemma WriteVerdict(hw: Hw, t: nat, data: seq<byte>)
    requires |data| <= 0xFF
    ensures var x := I2cWrite(hw, t, data);
      && (x.ok ==> t + 3 + |data| <= x.next && hw.ready(x.next - 1))
      && (!x.ok ==> t + POLL_LIMIT <= x.next && Stalled(hw.ready, x.next - POLL_LIMIT))
  {
    WriteWaits(hw, t, data);
    WaitsVerdict(hw.ready, t, 3 + |data|);
  }

  /** The reception loop is one wait per byte: its verdict and end are those of n chained waits. */
  lemma {:induction false} ReceiveAllWaits(hw: Hw, t: nat, n: nat)
    ensures ReceiveAll(hw, t, n).ok == Waits(hw.ready, t, n).seen
    ensures ReceiveAll(hw, t, n).next == Waits(hw.ready, t, n).next
    decreases n
  {
    if n > 0 {
      var received := Poll(hw.ready, t);
      if received.seen {
        ReceiveAllWaits(hw, received.next, n - 1);
      }
    }
  }

  /**
   `i2c_read` is 2 + len waits in sequence (start, address, one per byte):
   its verdict and end are those of the chain.
   */
  lemma ReadWaits(hw: Hw, t: nat, len: nat)
    requires len <= 0xFF
    ensures I2cRead(hw, t, len).ok == Waits(hw.ready, t, 2 + len).seen
    ensures I2cRead(hw, t, len).next == Waits(hw.ready, t, 2 + len).next
  {
    var started := Poll(hw.ready, t);
    var addressed := Poll(hw.ready, started.next);
    assert Waits(hw.ready, t, 2 + len) ==
      if started.seen then Waits(hw.ready, started.next, 1 + len) else started;
    assert Waits(hw.ready, started.next, 1 + len) ==
      if addressed.seen then Waits(hw.ready, addressed.next, len) else addressed;
    ReceiveAllWaits(hw, addressed.next, len);
  }

  /**
   `i2c_read` fails exactly on a stall: a failure ends with POLL_LIMIT
   observations that all missed the flag, and a success made at least one
   observation per wait and ended on one that saw its flag.
   */
  lemma ReadVerdict(hw: Hw, t: nat, len: nat)
    requires len <= 0xFF
    ensures var x := I2cRead(hw, t, len);
      && (x.ok ==> t + 2 + len <= x.next && hw.ready(x.next - 1))
      && (!x.ok ==> t + POLL_LIMIT <= x.next && Stalled(hw.ready, x.next - POLL_LIMIT))
  {
    ReadWaits(hw, t, len);
    WaitsVerdict(hw.ready, t, 2 + len);
  }

  /**
   A successful reception loop takes each byte from the data register right
   after the observation that saw it arrive; the last byte is read right after
   the final observation.
   */
  lemma ReceiveAllLastByte(hw: Hw, t: nat, n: nat)
    ensures var x := ReceiveAll(hw, t, n);
      x.ok && n > 0 ==> x.bytes[n - 1] == hw.data(x.next - 1)
  {
    if n > 0 && ReceiveAll(hw, t, n).ok {
      ReceiveAllBytes(hw, t, n, n - 1);
      ReceiveAllWaits(hw, t, n);
    }
  }

  /**
   A successful `i2c_read` of at least one byte took its last byte from the
   data register right after its final observation.
   */
  lemma {:induction false} ReadLastByte(hw: Hw, t: nat, len: nat)
    requires len <= 0xFF
    ensures var x := I2cRead(hw, t, len);
      x.ok && len > 0 ==> x.bytes[len - 1] == hw.data(x.next - 1)
  {
    var started := Poll(hw.ready, t);
    var addressed := Poll(hw.ready, started.next);
    ReceiveAllLastByte(hw, addressed.next, len);
  }

  /**
   A successful reception loop takes byte i from the data register right after
   the (i + 1)-th wait of its chain, the one that saw that byte arrive.
   */
  lemma {:induction false} ReceiveAllBytes(hw: Hw, t: nat, n: nat, i: nat)
    requires i < n && ReceiveAll(hw, t, n).ok
    ensures var w := Waits(hw.ready, t, i + 1);
      w.next > 0 && ReceiveAll(hw, t, n).bytes[i] == hw.data(w.next - 1)
    decreases n
  {
    var received := Poll(hw.ready, t);
    var rest := ReceiveAll(hw, received.next, n - 1);
    assert received.seen;
    assert Waits(hw.ready, t, i + 1) == Waits(hw.ready, received.next, i);
    if i == 0 {
      assert Waits(hw.ready, received.next, 0) == Wait(true, received.next);
    } else {
      ReceiveAllBytes(hw, received.next, n - 1, i - 1);
      assert ReceiveAll(hw, t, n).bytes[i] == rest.bytes[i - 1];
    }
  }

  /**
   A successful `i2c_read` takes byte i from the data register right after the
   (3 + i)-th wait of its chain: start, address, then one wait per byte.
   */
  lemma ReadBytes(hw: Hw, t: nat, len: nat, i: nat)
    requires len <= 0xFF
    requires i < len && I2cRead(hw, t, len).ok
    ensures var w := Waits(hw.ready, t, 3 + i);
      w.next > 0 && I2cRead(hw, t, len).bytes[i] == hw.data(w.next - 1)
  {
    var started := Poll(hw.ready, t);
    var addressed := Poll(hw.ready, started.next);
    assert started.seen && addressed.seen;
    assert Waits(hw.ready, t, 3 + i) == Waits(hw.ready, started.next, 2 + i);
    assert Waits(hw.ready, started.next, 2 + i) == Waits(hw.ready, addressed.next, i + 1);
    ReceiveAllBytes(hw, addressed.next, len, i);
  }

  /**
   A failed payload loop sent one byte per wait that passed, plus the byte
   whose wait timed out: with j bytes sent, j - 1 waits saw the flag and the
   j-th did not.
   */
  lemma {:induction false} SendAllFailureActions(hw: Hw, t: nat, data: seq<byte>)
    ensures var x := SendAll(hw, t, data);
      !x.ok ==> && 0 < |x.events|
                && Waits(hw.ready, t, |x.events| - 1).seen
                && !Waits(hw.ready, t, |x.events|).seen
    decreases |data|
  {
    if |data| > 0 {
      var sent := Poll(hw.ready, t);
      if sent.seen {
        var rest := SendAll(hw, sent.next, data[1..]);
        SendAllFailureActions(hw, sent.next, data[1..]);
        if !rest.ok {
          assert Waits(hw.ready, t, |rest.events|) == Waits(hw.ready, sent.next, |rest.events| - 1);
          assert Waits(hw.ready, t, |rest.events| + 1) == Waits(hw.ready, sent.next, |rest.events|);
        }
      }
    }
  }

  /**
   The first three waits of a chain are those of `i2c_write` before its
   payload: idle, start, address. Past them, the chain continues from where
   the address wait ended; a timeout among them ends the chain there.
   */
  lemma WriteChain(ready: nat -> bool, t: nat, k: nat)
    ensures var idle := Poll(ready, t);
      var started := Poll(ready, idle.next);
      var addressed := Poll(ready, started.next);
      && Waits(ready, t, 3 + k) ==
           (if !idle.seen then idle
            else if !started.seen then started
            else if !addressed.seen then addressed
            else Waits(ready, addressed.next, k))
      && Waits(ready, t, 1).seen == idle.seen
      && Waits(ready, t, 2).seen == (idle.seen && started.seen)
      && Waits(ready, t, 3).seen == (idle.seen && started.seen && addressed.seen)
  {
    var idle := Poll(ready, t);
    var started := Poll(ready, idle.next);
    var addressed := Poll(ready, started.next);
    assert Waits(ready, t, 3 + k) == if idle.seen then Waits(ready, idle.next, 2 + k) else idle;
    assert Waits(ready, idle.next, 2 + k) ==
      if started.seen then Waits(ready, started.next, 1 + k) else started;
    assert Waits(ready, started.next, 1 + k) ==
      if addressed.seen then Waits(ready, addressed.next, k) else addressed;
    assert Waits(ready, t, 3) == if idle.seen then Waits(ready, idle.next, 2) else idle;
    assert Waits(ready, idle.next, 2) == if started.seen then Waits(ready, started.next, 1) else started;
    assert Waits(ready, started.next, 1) == if addressed.seen then Waits(ready, addressed.next, 0) else addressed;
    assert Waits(ready, t, 2) == if idle.seen then Waits(ready, idle.next, 1) else idle;
    assert Waits(ready, idle.next, 1) == if started.seen then Waits(ready, started.next, 0) else started;
  }

  /**
   A failed `i2c_write` took one bus action per wait that passed: the waits
   for idle, start and address each precede one action (START, the address
   byte, the first data byte), and each byte's wait precedes the next byte.
   So with k actions taken, the first k waits saw their flags and the next
   one timed out, leaving the bus without STOP.
   */
  lemma WriteFailureActions(hw: Hw, t: nat, data: seq<byte>)
    requires |data| <= 0xFF
    ensures var x := I2cWrite(hw, t, data);
      !x.ok ==> Waits(hw.ready, t, |x.events|).seen && !Waits(hw.ready, t, |x.events| + 1).seen
  {
    var idle := Poll(hw.ready, t);
    var started := Poll(hw.ready, idle.next);
    var addressed := Poll(hw.ready, started.next);
    var body := SendAll(hw, addressed.next, data);
    WriteFailureLength(hw, t, data);
    if !idle.seen || !started.seen || !addressed.seen {
      WriteChain(hw.ready, t, 0);
    } else if !body.ok {
      SendAllFailureActions(hw, addressed.next, data);
      WriteChain(hw.ready, t, |body.events| - 1);
      WriteChain(hw.ready, t, |body.events|);
    }
  }

  /** How many actions a failed `i2c_write` took, by the wait that ended it. */
  lemma WriteFailureLength(hw: Hw, t: nat, data: seq<byte>)
    requires |data| <= 0xFF
    ensures var x := I2cWrite(hw, t, data);
      var idle := Poll(hw.ready, t);
      var started := Poll(hw.ready, idle.next);
      var addressed := Poll(hw.ready, started.next);
      var body := SendAll(hw, addressed.next, data);
      && x.ok == (idle.seen && started.seen && addressed.seen && body.ok)
      && (!idle.seen ==> |x.events| == 0)
      && (idle.seen && !started.seen ==> |x.events| == 1)
      && (idle.seen && started.seen && !addressed.seen ==> |x.events| == 2)
      && (idle.seen && started.seen && addressed.seen && !body.ok ==>
            0 < |body.events| && |x.events| == 3 + (|body.events| - 1))
  {
  }

  /**
   A failed reception loop's actions are a proper prefix of the actions of
   receiving any completion y of the bytes it did take.
   */
  lemma {:induction false} ReceiveAllFailureActions(hw: Hw, t: nat, n: nat, y: seq<byte>)
    requires |y| == n
    ensures var x := ReceiveAll(hw, t, n);
      !x.ok && x.bytes <= y ==> x.events < Receives(y)
    decreases n
  {
    var x := ReceiveAll(hw, t, n);
    if n > 0 && !x.ok && x.bytes <= y {
      var received := Poll(hw.ready, t);
      if received.seen {
        var rest := ReceiveAll(hw, received.next, n - 1);
        assert x.bytes == [hw.data(received.next - 1)] + rest.bytes;
        assert x.bytes[0] == y[0];
        assert rest.bytes <= y[1..];
        ReceiveAllFailureActions(hw, received.next, n - 1, y[1..]);
        assert Receives(y) == [Ack(n > 1), Receive(y[0])] + Receives(y[1..]);
      }
    }
  }

  /**
   A failed `i2c_read` stopped part-way through the read it began: its actions
   are a proper prefix of the actions of reading any len bytes that extend the
   bytes it did take, and they never include STOP.
   */
  lemma ReadFailureActions(hw: Hw, t: nat, len: nat, y: seq<byte>)
    requires len <= 0xFF && |y| == len
    ensures var x := I2cRead(hw, t, len);
      !x.ok && x.bytes <= y ==> x.events < ReadTrace(y)
  {
    var x := I2cRead(hw, t, len);
    var started := Poll(hw.ready, t);
    var addressed := Poll(hw.ready, started.next);
    if !x.ok && x.bytes <= y && started.seen && addressed.seen {
      var body := ReceiveAll(hw, addressed.next, len);
      ReceiveAllFailureActions(hw, addressed.next, len, y);
      assert x.events == [Start, Send(READ_ADDRESS)] + body.events;
    }
  }

  /**
   A write can only fail on a stall: if no POLL_LIMIT consecutive observations
   from t on all miss the flag, `i2c_write` succeeds.
   */
  lemma WriteSucceedsWithoutStall(hw: Hw, t: nat, data: seq<byte>)
    requires |data| <= 0xFF
    requires forall s :: t <= s ==> !Stalled(hw.ready, s)
    ensures I2cWrite(hw, t, data).ok
  {
    WriteVerdict(hw, t, data);
  }

  /**
   A read can only fail on a stall: if no POLL_LIMIT consecutive observations
   from t on all miss the flag, `i2c_read` succeeds.
   */
  lemma ReadSucceedsWithoutStall(hw: Hw, t: nat, len: nat)
    requires len <= 0xFF
    requires forall s :: t <= s ==> !Stalled(hw.ready, s)
    ensures I2cRead(hw, t, len).ok
  {
    ReadVerdict(hw, t, len);
  }

  /** The address bytes are the 7-bit address shifted left, with the read bit OR-ed in for reads. */
  lemma AddressBytes()
    ensures WRITE_ADDRESS == ShiftLeft32(ADDRESS, 1) == 0x70
    ensures READ_ADDRESS == BitOr(ShiftLeft32(ADDRESS, 1), 0x01) == 0x71
  {
    Pow2Values();
    OrDisjoint(ADDRESS, 1, 1);
  }

  /**
   ACK for every byte but the last, NACK for the last: in the reception actions
   for bytes, position 2i clears the acknowledge bit exactly when i is the last
   index, and position 2i + 1 takes byte i.
   */
  lemma {:induction false} ReceivesAckPattern(bytes: seq<byte>, i: nat)
    requires i < |bytes|
    ensures |Receives(bytes)| == 2 * |bytes|
    ensures Receives(bytes)[2 * i] == Ack(i < |bytes| - 1)
    ensures Receives(bytes)[2 * i + 1] == Receive(bytes[i])
    decreases i
  {
    ReceivesLength(bytes);
    if i > 0 {
      ReceivesAckPattern(bytes[1..], i - 1);
    }
  }

  lemma {:induction false} ReceivesLength(bytes: seq<byte>)
    ensures |Receives(bytes)| == 2 * |bytes|
    decreases |bytes|
  {
    if |bytes| > 0 {
      ReceivesLength(bytes[1..]);
    }
  }

  /** A wait whose first observation already shows the flag succeeds after one check. */
  lemma PollReady(ready: nat -> bool, t: nat)
    requires ready(t)
    ensures Poll(ready, t) == Wait(true, t + 1)
  {
  }

  /** With a peripheral that always shows the awaited flag, k chained waits take one check each. */
  lemma {:induction false} WaitsResponsive(ready: nat -> bool, t: nat, k: nat)
    requires forall j :: t <= j ==> ready(j)
    ensures Waits(ready, t, k) == Wait(true, t + k)
    decreases k
  {
    if k > 0 {
      PollReady(ready, t);
      WaitsResponsive(ready, t + 1, k - 1);
    }
  }

  /**
   With a peripheral that always shows the awaited flag, the payload loop
   succeeds after one observation per byte.
   */
  lemma {:induction false} SendAllResponsive(hw: Hw, t: nat, data: seq<byte>)
    requires forall k :: t <= k ==> hw.ready(k)
    ensures SendAll(hw, t, data).ok && SendAll(hw, t, data).next == t + |data|
    decreases |data|
  {
    if |data| > 0 {
      PollReady(hw.ready, t);
      SendAllResponsive(hw, t + 1, data[1..]);
    }
  }

  /**
   With a peripheral that always shows the awaited flag, `i2c_write` succeeds
   after one observation per wait: idle, start, address, and one per byte.
   */
  lemma WriteResponsive(hw: Hw, t: nat, data: seq<byte>)
    requires |data| <= 0xFF
    requires forall k :: t <= k ==> hw.ready(k)
    ensures I2cWrite(hw, t, data).ok
    ensures I2cWrite(hw, t, data).next == t + 3 + |data|
  {
    PollReady(hw.ready, t);
    PollReady(hw.ready, t + 1);
    PollReady(hw.ready, t + 2);
    SendAllResponsive(hw, t + 3, data);
  }

  /**
   With a peripheral that always shows the awaited flag, the reception loop
   succeeds after one observation per byte.
   */
  lemma {:induction false} ReceiveAllResponsive(hw: Hw, t: nat, n: nat)
    requires forall k :: t <= k ==> hw.ready(k)
    ensures ReceiveAll(hw, t, n).ok && ReceiveAll(hw, t, n).next == t + n
    decreases n
  {
    if n > 0 {
      PollReady(hw.ready, t);
      ReceiveAllResponsive(hw, t + 1, n - 1);
    }
  }

  /**
   With a peripheral that always shows the awaited flag, `i2c_read` succeeds
   after one observation per wait: start, address, and one per byte.
   */
  lemma ReadResponsive(hw: Hw, t: nat, len: nat)
    requires len <= 0xFF
    requires forall k :: t <= k ==> hw.ready(k)
    ensures I2cRead(hw, t, len).ok
    ensures I2cRead(hw, t, len).next == t + 2 + len
  {
    PollReady(hw.ready, t);
    PollReady(hw.ready, t + 1);
    ReceiveAllResponsive(hw, t + 2, len);
  }

  /**
   With a peripheral that always shows the awaited flag, `i2c_read` takes byte
   i from the data register right after observation t + 2 + i.
   */
  lemma ReadBytesResponsive(hw: Hw, t: nat, len: nat)
    requires len <= 0xFF
    requires forall k :: t <= k ==> hw.ready(k)
    ensures I2cRead(hw, t, len).ok && |I2cRead(hw, t, len).bytes| == len
    ensures forall i :: 0 <= i < len ==> I2cRead(hw, t, len).bytes[i] == hw.data(t + 2 + i)
  {
    ReadResponsive(hw, t, len);
    forall i | 0 <= i < len
      ensures I2cRead(hw, t, len).bytes[i] == hw.data(t + 2 + i)
    {
      ReadBytes(hw, t, len, i);
      WaitsResponsive(hw.ready, t, 3 + i);
    }
  }

  /**
   A bus that stays busy for the whole first wait makes `i2c_write` give up
   after exactly POLL_LIMIT observations, before it has touched the bus.
   */
  lemma WriteStuckBusy(hw: Hw, t: nat, data: seq<byte>)
    requires |data| <= 0xFF
    requires forall k :: t <= k < t + POLL_LIMIT ==> !hw.ready(k)
    ensures !I2cWrite(hw, t, data).ok
    ensures I2cWrite(hw, t, data).next == t + POLL_LIMIT
    ensures I2cWrite(hw, t, data).events == []
  {
  }
}

=== FILE: fixed_point.dfy ===
/**
 The AHT10 transfer functions, from a 20-bit raw reading to tenths of a percent
 relative humidity and tenths of a degree Celsius, as the driver computes them
 and stores them in `int16_t` fields.

 The driver evaluates `raw * 1000.0 / 1048576.0` and
 `raw * 2000.0 / 1048576.0 - 500.0` in `double` and converts the result to
 `int16_t`. Every intermediate value is exact in binary floating point: the raw
 readings are below 2^20, so the products are integers below 2^31, dividing by
 2^20 only moves the binary point, and subtracting 500 leaves a value below 2^11
 with at most 20 fraction bits. The conversion to an integer then truncates
 toward zero (section 6.3.1.4 of ISO C11). Both transfer functions are
 therefore modelled exactly with integers: floor for the never-negative
 humidity, truncation toward zero for the temperature, which can be negative.
 */
module FixedPoint {

  /** 2^20, the divisor 1048576.0 of both transfer functions; every raw reading is below it. */
  const RAW_SCALE: nat := 0x10_0000

  /** The `int16_t` fields of the device handle. */
  newtype int16 = x: int | -0x8000 <= x < 0x8000

  /** The integer conversion of the exact quotient n / 2^20: truncation toward zero. */
  function TruncScaled(n: int): (q: int)
    ensures n >= 0 ==> q * 0x10_0000 <= n < (q + 1) * 0x10_0000
    ensures n < 0 ==> (q - 1) * 0x10_0000 < n <= q * 0x10_0000
  {
    if n >= 0 then n / 0x10_0000 else -((-n) / 0x10_0000)
  }

  /** Relative humidity in tenths of a percent: the exact value raw * 1000 / 2^20 rounded down. */
  function HumidityX10(raw: nat): (h: int16)
    requires raw < RAW_SCALE
    ensures 0 <= h <= 999
    ensures (h as int) * 0x10_0000 <= raw * 1000 < (h as int + 1) * 0x10_0000
  {
    (raw * 1000 / 0x10_0000) as int16
  }

  /**
   Temperature in tenths of a degree: the exact value raw * 2000 / 2^20 - 500,
   that is e / 2^20 for e below, truncated toward zero.
   */
  function TemperatureX10(raw: nat): (c: int16)
    requires raw < RAW_SCALE
    ensures -500 <= c <= 1499
    ensures var e := raw * 2000 - 500 * 0x10_0000;
      && (e >= 0 ==> (c as int) * 0x10_0000 <= e < (c as int + 1) * 0x10_0000)
      && (e < 0 ==> (c as int - 1) * 0x10_0000 < e <= (c as int) * 0x10_0000)
  {
    TruncScaled(raw * 2000 - 500 * 0x10_0000) as int16
  }

  /** The smallest raw reading that shows humidity h: every value in [0, 999] is reachable. */
  function HumidityRawFor(h: int): (raw: nat)
    requires 0 <= h <= 999
    ensures raw < RAW_SCALE && HumidityX10(raw) as int == h
    ensures raw > 0 ==> HumidityX10(raw - 1) as int == h - 1
  {
    (h * 0x10_0000 + 999) / 1000
  }

  /** A raw reading that shows temperature c: every value in [-500, 1499] is reachable. */
  function TemperatureRawFor(c: int): (raw: nat)
    requires -500 <= c <= 1499
    ensures raw < RAW_SCALE && TemperatureX10(raw) as int == c
  {
    if c <= 0 then (c + 500) * 0x10_0000 / 2000
    else ((c + 500) * 0x10_0000 + 1999) / 2000
  }

  /** A larger raw humidity reading never shows a lower humidity. */
  lemma HumidityMonotone(a: nat, b: nat)
    requires a <= b < RAW_SCALE
    ensures HumidityX10(a) <= HumidityX10(b)
  {
  }

  /** A larger raw temperature reading never shows a lower temperature. */
  lemma TemperatureMonotone(a: nat, b: nat)
    requires a <= b < RAW_SCALE
    ensures TemperatureX10(a) <= TemperatureX10(b)
  {
  }

  /**
   Truncation toward zero gives the reading 0 to every exact value strictly
   between -1 and 1 tenth of a degree: the band of raw readings showing 0 is
   twice as wide as the band of any other reading.
   */
  lemma TemperatureZeroBand(raw: nat)
    requires raw < RAW_SCALE
    ensures TemperatureX10(raw) == 0 <==> 499 * 0x10_0000 < raw * 2000 < 501 * 0x10_0000
  {
  }

  /** Away from zero, one reading covers exactly one tenth of a degree of exact values. */
  lemma TemperatureBand(raw: nat, c: int)
    requires raw < RAW_SCALE && c != 0
    ensures TemperatureX10(raw) as int == c <==>
      if c > 0 then (c + 500) * 0x10_0000 <= raw * 2000 < (c + 501) * 0x10_0000
      else (c + 499) * 0x10_0000 < raw * 2000 <= (c + 500) * 0x10_0000
  {
  }
}

=== FILE: frame.dfy ===
/**
 The AHT10 response frame: six bytes, a status byte followed by two 20-bit raw
 readings packed back to back into the next five bytes. Byte 3 is shared: its
 upper nibble ends the humidity reading and its lower nibble starts the
 temperature reading.

     byte:  0        1        2        3        4        5
            status | hhhhhhhh hhhhhhhh hhhhtttt tttttttt tttttttt
 */
module Frame {
  import opened Bits
  import FixedPoint

  const FRAME_LEN: nat := 6

  /** Bit 7 of the status byte, `data[0] & 0x80`: the sensor is still converting. */
  function Busy(f: seq<byte>): (busy: bool)
    requires |f| == FRAME_LEN
    ensures busy <==> f[0] >= 0x80
  {
    HighBit(f[0]);
    BitAnd(f[0], 0x80) != 0
  }

  /** The 20-bit humidity reading: bytes 1 to 3 as a 24-bit word, shifted right by four. */
  function HumidityRaw(f: seq<byte>): (raw: nat)
    requires |f| == FRAME_LEN
    ensures raw == (f[1] as nat) * 0x1000 + (f[2] as nat) * 0x10 + (f[3] as nat) / 0x10
    ensures raw < FixedPoint.RAW_SCALE
  {
    Pow2Values();
    ConcatBytes(f[1], f[2], f[3]);
    ShiftRightDiv(BitOr(BitOr(ShiftLeft32(f[1], 16), ShiftLeft32(f[2], 8)), f[3]), 4);
    ShiftRight(BitOr(BitOr(ShiftLeft32(f[1], 16), ShiftLeft32(f[2], 8)), f[3]), 4)
  }

  /** The 20-bit temperature reading: the low nibble of byte 3, then bytes 4 and 5. */
  function TemperatureRaw(f: seq<byte>): (raw: nat)
    requires |f| == FRAME_LEN
    ensures raw == ((f[3] as nat) % 0x10) * 0x1_0000 + (f[4] as nat) * 0x100 + f[5] as nat
    ensures raw < FixedPoint.RAW_SCALE
  {
    LowNibble(f[3]);
    ConcatBytes(BitAnd(f[3], 0x0F), f[4], f[5]);
    BitOr(BitOr(ShiftLeft32(BitAnd(f[3], 0x0F), 16), ShiftLeft32(f[4], 8)), f[5])
  }

  /**
   The frame a sensor sends for a status byte and two raw readings: the inverse
   of the decoder's unpacking.
   */
  function Pack(status: byte, humidity: nat, temperature: nat): (f: seq<byte>)
    requires humidity < FixedPoint.RAW_SCALE && temperature < FixedPoint.RAW_SCALE
    ensures |f| == FRAME_LEN && f[0] == status
    ensures HumidityRaw(f) == humidity && TemperatureRaw(f) == temperature
  {
    SplitHumidity(humidity);
    SplitTemperature(temperature);
    [ status,
      humidity / 0x1000,
      (humidity / 0x10) % 0x100,
      (humidity % 0x10) * 0x10 + temperature / 0x1_0000,
      (temperature / 0x100) % 0x100,
      temperature % 0x100 ]
  }

  /** A 20-bit humidity reading as a byte, a byte and a nibble, most significant first. */
  lemma SplitHumidity(h: nat)
    requires h < FixedPoint.RAW_SCALE
    ensures h / 0x1000 < 0x100
    ensures h == (h / 0x1000) * 0x1000 + ((h / 0x10) % 0x100) * 0x10 + h % 0x10
  {
    var q := h / 0x1000;
    var r := h % 0x1000;
    DivModUnique(h, 0x10, q * 0x100 + r / 0x10, r % 0x10);
    DivModUnique(h / 0x10, 0x100, q, r / 0x10);
  }

  /** A 20-bit temperature reading as a nibble and two bytes, most significant first. */
  lemma SplitTemperature(t: nat)
    requires t < FixedPoint.RAW_SCALE
    ensures t / 0x1_0000 < 0x10
    ensures t == (t / 0x1_0000) * 0x1_0000 + ((t / 0x100) % 0x100) * 0x100 + t % 0x100
  {
    var q := t / 0x1_0000;
    var r := t % 0x1_0000;
    DivModUnique(t, 0x100, q * 0x100 + r / 0x100, r % 0x100);
    DivModUnique(t / 0x100, 0x100, q, r / 0x100);
  }

  /**
   The two readings use every bit of bytes 1 to 5, so a frame is determined by
   its status byte and its two raw readings.
   */
  lemma {:induction false} PackUnpack(f: seq<byte>)
    requires |f| == FRAME_LEN
    ensures Pack(f[0], HumidityRaw(f), TemperatureRaw(f)) == f
  {
    var h := HumidityRaw(f);
    var t := TemperatureRaw(f);
    var b1, b2, b3, b4, b5 := f[1] as nat, f[2] as nat, f[3] as nat, f[4] as nat, f[5] as nat;
    DivModUnique(h, 0x1000, b1, b2 * 0x10 + b3 / 0x10);
    DivModUnique(h, 0x10, b1 * 0x100 + b2, b3 / 0x10);
    DivModUnique(h / 0x10, 0x100, b1, b2);
    DivModUnique(t, 0x1_0000, b3 % 0x10, b4 * 0x100 + b5);
    DivModUnique(t, 0x100, (b3 % 0x10) * 0x100 + b4, b5);
    DivModUnique(t / 0x100, 0x100, b3 % 0x10, b4);
    var g := Pack(f[0], h, t);
    assert forall i | 0 <= i < FRAME_LEN :: g[i] == f[i];
  }

  /**
   The humidity reading depends on bytes 1, 2 and the upper nibble of byte 3,
   and on nothing else: two frames give the same reading exactly when they
   agree there.
   */
  lemma HumidityRawFields(f: seq<byte>, g: seq<byte>)
    requires |f| == FRAME_LEN && |g| == FRAME_LEN
    ensures HumidityRaw(f) == HumidityRaw(g) <==>
      f[1] == g[1] && f[2] == g[2] && f[3] / 0x10 == g[3] / 0x10
  {
    if HumidityRaw(f) == HumidityRaw(g) {
      var h := HumidityRaw(f);
      DivModUnique(h, 0x1000, f[1], (f[2] as nat) * 0x10 + (f[3] as nat) / 0x10);
      DivModUnique(h, 0x1000, g[1], (g[2] as nat) * 0x10 + (g[3] as nat) / 0x10);
      DivModUnique(h % 0x1000, 0x10, f[2], (f[3] as nat) / 0x10);
      DivModUnique(h % 0x1000, 0x10, g[2], (g[3] as nat) / 0x10);
    }
  }

  /**
   The temperature reading depends on the lower nibble of byte 3 and bytes 4
   and 5, and on nothing else: two frames give the same reading exactly when
   they agree there.
   */
  lemma TemperatureRawFields(f: seq<byte>, g: seq<byte>)
    requires |f| == FRAME_LEN && |g| == FRAME_LEN
    ensures TemperatureRaw(f) == TemperatureRaw(g) <==>
      f[3] % 0x10 == g[3] % 0x10 && f[4] == g[4] && f[5] == g[5]
  {
    if TemperatureRaw(f) == TemperatureRaw(g) {
      var t := TemperatureRaw(f);
      DivModUnique(t, 0x1_0000, (f[3] as nat) % 0x10, (f[4] as nat) * 0x100 + f[5] as nat);
      DivModUnique(t, 0x1_0000, (g[3] as nat) % 0x10, (g[4] as nat) * 0x100 + g[5] as nat);
      DivModUnique(t % 0x1_0000, 0x100, f[4], f[5]);
      DivModUnique(t % 0x1_0000, 0x100, g[4], g[5]);
    }
  }
}

=== FILE: wrappers.dfy ===
/** The optional value returned by the frame decoder. */
module Wrappers {

  datatype Option<+T> = None | Some(value: T)
}
